=== FILE: README.md ===
# Annotation-driven object renderer, modelled in Dafny

This project models the renderer of the `edu.hm.cs.swa.demo` package. The
renderer turns an object into text. It writes a header line naming the
object's type. Then it writes one line per field annotated with `@RenderMe`,
and one line per annotated method that does not return `void`. A field's
annotation may name a plugin class in its `with` attribute. That plugin then
formats the field instead of the built-in `name (Type T): value` format. The
project also models the sample plugin `edu.hm.renderer.ArrayRenderer`, which
formats an `int[]` as `(Type int[]): [1, 2, 3, ]` plus a newline.

Java reflection is replaced by plain data:

- a `Target` with its canonical type name, its declared fields and its declared
  methods, in the order reflection reports them;
- a `Field` with its name, a type descriptor, an optional `@RenderMe` marker,
  whether Java's access checks let the renderer read it, and its value;
- a `Method` with its name, its marker and the text of its return type;
- the loadable plugin classes: a map from class name to the class's
  constructor status and its `render` methods, keyed by exact parameter type.

Each method of the Java `Renderer` class is a pure function. Those that can
throw return `Result<string, Error>`; the others return a `string` or a
`bool`. Each cause of an exception is one `Error` constructor.

Files:

- `wrappers.dfy`: `Option` and `Result`.
- `decimal.dfy`: Java's decimal text of an `int`, and a parser that reads it back.
- `text.dfy`: first-occurrence search and Java's `"null"` text for null strings.
- `array_renderer.dfy`: the sample plugin. It has a functional definition, a
  loop version, and a parser proving that the output determines the array.
- `metadata.dfy`: the reflective metadata and the `@RenderMe` marker.
- `renderer.dfy`: the renderer, one function per Java method.
- `renderer_properties.dfy`: assembly order, filtering, dispatch and a reader for each line format.
- `scenario.dfy`: the test object `SomeClass`, the array plugin registered by
  name, and the outputs the repository's tests expect.

## Model

| member | source | states |
|---|---|---|
| Renderer.New | src/main/java/edu/hm/cs/swa/demo/Renderer.java:19-25 | a null target fails with an illegal-argument error, and only then; otherwise the renderer holds exactly the given object |
| Scenario.NullTargetRefused | src/main/java/edu/hm/cs/swa/demo/Renderer.java:20-22 | constructing over no object yields `IllegalArgument` before anything is rendered |
| Renderer.Render | src/main/java/edu/hm/cs/swa/demo/Renderer.java:36-55 | rendering succeeds exactly when every annotated field renders. A failure carries the error of the first failing field in declaration order, with no partial output. A success starts with the header line |
| RendererProperties.RenderLayout | src/main/java/edu/hm/cs/swa/demo/Renderer.java:43-54 | however fields and methods are split into earlier and later parts, the output is the header, then the earlier and later field text, then the earlier and later method text: declaration order is kept |
| RendererProperties.NothingAnnotatedRendersHeader | src/main/java/edu/hm/cs/swa/demo/Renderer.java:43-54 | with no annotated field and no rendered method, the output is exactly `Instance of <name>:\n` |
| RendererProperties.MethodsNeverFail | src/main/java/edu/hm/cs/swa/demo/Renderer.java:187-200 | whether rendering succeeds does not depend on the methods at all |
| Renderer.RenderInstanceName | src/main/java/edu/hm/cs/swa/demo/Renderer.java:62-65 | the header is `Instance of `, the canonical name (`null` when the class has none), and `:\n` |
| RendererProperties.HeaderRoundTrip | src/main/java/edu/hm/cs/swa/demo/Renderer.java:62-65 | the type name can be read back out of the header line |
| Renderer.RenderFields | src/main/java/edu/hm/cs/swa/demo/Renderer.java:77-96 | the field section succeeds exactly when every declared field's part succeeds; on failure the error is that of the first failing field, all earlier ones having succeeded |
| RendererProperties.RenderFieldsConcat | src/main/java/edu/hm/cs/swa/demo/Renderer.java:88-93 | rendering fields `a + b` is rendering `a` then `b`, concatenated, with the first failure winning |
| RendererProperties.RenderOneField | src/main/java/edu/hm/cs/swa/demo/Renderer.java:88-93 | a single field contributes its rendered line when annotated and nothing otherwise |
| RendererProperties.UnannotatedFieldsRenderNothing | src/main/java/edu/hm/cs/swa/demo/Renderer.java:88-95 | fields without the annotation yield an empty section that cannot fail |
| RendererProperties.UnannotatedFieldIgnored | src/main/java/edu/hm/cs/swa/demo/Renderer.java:88-93 | inserting an unannotated field anywhere leaves the whole result unchanged |
| Renderer.RenderField | src/main/java/edu/hm/cs/swa/demo/Renderer.java:108-121 | with the delegated path as corrected (see Findings). With an empty `with`, the field fails exactly when its value is null, with a null-pointer error naming the field. With a non-empty `with`, it succeeds exactly when the named plugin resolves and its `render` returns a string or null. Each failure names the plugin class, and its cause decides the error, checked in the order of lines 172-177: a class that cannot be loaded gives class-not-found, a missing constructor an instantiation error, an inaccessible one an access error, no `render` for the field's exact type no-such-method, a `render` that throws an invocation-target error, and a non-string result a class-cast error |
| RendererProperties.RenderFieldReadsBack | src/main/java/edu/hm/cs/swa/demo/Renderer.java:108-121 | what each branch writes, read back with independent parsers. An empty `with` gives the standard line of the field name, its type label and its value text. Any other `with` gives the field name followed by exactly the plugin's text |
| RendererProperties.EmptyWithIgnoresPlugins | src/main/java/edu/hm/cs/swa/demo/Renderer.java:115-120 | an empty `with` selects the standard format and never consults the plugin classes |
| Renderer.UseStandardFieldRenderer | src/main/java/edu/hm/cs/swa/demo/Renderer.java:129-141 | the standard line fails exactly for a null value, with a null-pointer error naming the field; a successful line ends in a newline |
| Renderer.GetTypeOfField | src/main/java/edu/hm/cs/swa/demo/Renderer.java:148-152 | the type label is the simple name of a primitive type and the canonical name of any other, `null` when it has none; `RendererProperties.StandardLineRoundTrip` reads this label back out of the rendered line |
| RendererProperties.StandardLineRoundTrip | src/main/java/edu/hm/cs/swa/demo/Renderer.java:129-152 | the standard line reads back as the field name, the type label and the value text. The label is the simple name for a primitive type and the canonical name otherwise |
| RendererProperties.ParseStandardLineOf | src/main/java/edu/hm/cs/swa/demo/Renderer.java:133-138 | `name (Type label): value\n` reads back into its three parts for a space-free name and a label without `)` |
| Renderer.UseExternalFieldRenderer | src/main/java/edu/hm/cs/swa/demo/Renderer.java:159-180 | the delegated path as corrected (see Findings). It succeeds exactly when the class loads and instantiates, has a `render` for the field's exact type, and that call returns a string or null. The line is `name ` followed by the plugin's text or `null`. Each failure cause gives its own exception from the `@throws` list, in the order `forName`, `newInstance`, `getMethod`, `invoke`, cast: class-not-found, instantiation, constructor access, no-such-method, invocation-target, class-cast. None comes from field visibility |
| Renderer.ResolveRender | src/main/java/edu/hm/cs/swa/demo/Renderer.java:172-176 | the plugin resolves exactly when its class is loadable, its constructor usable and it has a `render` for the field's exact type, and then yields that `render`. The first failing step decides the error: class-not-found, then instantiation, then constructor access, then no-such-method. Resolution never raises an invocation or cast error |
| Renderer.Invoke | src/main/java/edu/hm/cs/swa/demo/Renderer.java:177 | the call succeeds exactly when `render` returns a string or null, giving that text or `null`. A `render` that throws gives an invocation-target error and a non-string result a class-cast error, both naming the plugin class |
| RendererProperties.DelegatedLinePassThrough | src/main/java/edu/hm/cs/swa/demo/Renderer.java:172-179 | a delegated line reads back as the field name and exactly the plugin's text: no newline or other text is added |
| Renderer.UseExternalFieldRendererAsWritten | src/main/java/edu/hm/cs/swa/demo/Renderer.java:172-179 | as the source is written, a field the access checks refuse fails with an access error once the plugin resolves |
| Scenario.PrivateDelegatedFieldAsWritten | src/main/java/edu/hm/cs/swa/demo/Renderer.java:177 | a private `int[]` field delegated to the array plugin fails as written but renders `array (Type int[]): [1, 2, 3, ]\n` when the field is read with the access override |
| Renderer.FieldPartAsWritten | src/main/java/edu/hm/cs/swa/demo/Renderer.java:108-121 | `renderField` as the source writes it. An unannotated field contributes nothing. A field with an empty `with`, or a readable one, gives exactly the corrected result. A delegated field the access checks refuse always fails, with an access error naming the field exactly when its plugin resolves; `RendererProperties.FieldPartAsWrittenDiffers` states the whole difference |
| RendererProperties.FieldPartAsWrittenDiffers | src/main/java/edu/hm/cs/swa/demo/Renderer.java:165-180 | as written, a field's part differs from the corrected one only for a delegated, unreadable field whose plugin resolves, and then it is an access error naming the field |
| Renderer.RenderFieldsAsWritten | src/main/java/edu/hm/cs/swa/demo/Renderer.java:77-96 | as written, the field section succeeds exactly when every field's part succeeds; a failure carries the first failing field's error |
| Renderer.RenderAsWritten | src/main/java/edu/hm/cs/swa/demo/Renderer.java:36-55 | `render()` as the source writes it. It succeeds exactly when every field's part as written succeeds. A failure carries the error of the first failing field, with no partial output. A success starts with the header line |
| RendererProperties.RenderAsWrittenSuccessAgrees | src/main/java/edu/hm/cs/swa/demo/Renderer.java:36-55 | whenever the source as written renders, its output is exactly the corrected model's output |
| RendererProperties.FieldsAsWrittenWhenReadable | src/main/java/edu/hm/cs/swa/demo/Renderer.java:165-180 | when every delegated field is readable, the field section as written equals the corrected one |
| RendererProperties.RenderAsWrittenWhenReadable | src/main/java/edu/hm/cs/swa/demo/Renderer.java:36-55 | when every delegated field is readable, the whole output as written equals the corrected output |
| RendererProperties.RenderAsWrittenRefusesPrivate | src/main/java/edu/hm/cs/swa/demo/Renderer.java:172-177 | as written, rendering fails with an access error naming the first delegated private field whose plugin resolves, provided every earlier field renders |
| RendererProperties.VisibilityIrrelevant | src/main/java/edu/hm/cs/swa/demo/Renderer.java:132 | with the delegated path corrected, private and public fields produce the same field section, as the standard path already ensures by overriding the access checks |
| Renderer.RenderMethods | src/main/java/edu/hm/cs/swa/demo/Renderer.java:187-200 | the method section is empty exactly when no method is both annotated and non-void |
| RendererProperties.RenderMethodsConcat | src/main/java/edu/hm/cs/swa/demo/Renderer.java:193-197 | rendering methods `a + b` is rendering `a` then `b`: declaration order is kept |
| RendererProperties.RenderOneMethod | src/main/java/edu/hm/cs/swa/demo/Renderer.java:193-218 | a single method contributes its line exactly when annotated and its return type is not `void` |
| RendererProperties.HiddenMethodIgnored | src/main/java/edu/hm/cs/swa/demo/Renderer.java:193-197 | inserting an unannotated or void method anywhere leaves the whole result unchanged |
| Renderer.RenderMethod | src/main/java/edu/hm/cs/swa/demo/Renderer.java:207-209 | the line is the method name, ` returns: `, the return type's text and a newline, at those positions; `RendererProperties.MethodLineRoundTrip` reads the name and type back |
| Renderer.MethodReturnsVoid | src/main/java/edu/hm/cs/swa/demo/Renderer.java:216-218 | a method counts as void exactly when its return type's text is `void`; `RendererProperties.RenderOneMethod` shows that such a method contributes nothing |
| RendererProperties.MethodLineRoundTrip | src/main/java/edu/hm/cs/swa/demo/Renderer.java:207-209 | a method line reads back as the method name and its return type's text |
| Decimal.IntToString | src/main/java/edu/hm/renderer/ArrayRenderer.java:18 | an int's text is non-empty and all digits, except a leading `-` exactly for negative values. A text starting with `0` is exactly `0`, the text of zero, and a negative value's first digit is never `0`: there are no leading zeros |
| Decimal.IntRoundTrip | src/main/java/edu/hm/renderer/ArrayRenderer.java:18 | an int's decimal text reads back as the same int |
| Decimal.NatRoundTrip | src/main/java/edu/hm/renderer/ArrayRenderer.java:18 | the digits of a natural number read back as that number |
| ArrayRenderer.Render | src/main/java/edu/hm/renderer/ArrayRenderer.java:7-23 | the output starts with `(Type int[]): [` and ends with `]\n`; it is exactly `(Type int[]): []\n` if and only if the array is empty |
| ArrayRenderer.RenderIntArray | src/main/java/edu/hm/renderer/ArrayRenderer.java:14-23 | the builder loop over an array it only reads computes the same text as the functional definition |
| ArrayRenderer.ElementsConcat | src/main/java/edu/hm/renderer/ArrayRenderer.java:17-20 | the builder's text for `a + b` is the text for `a` followed by the text for `b` |
| ArrayRenderer.AppendElement | src/main/java/edu/hm/renderer/ArrayRenderer.java:17-20 | one more element appends exactly its decimal text and `, ` |
| ArrayRenderer.RenderAppend | src/main/java/edu/hm/renderer/ArrayRenderer.java:17-22 | appending `x` to the array inserts exactly `str(x) + ", "` just before the closing `]\n` |
| ArrayRenderer.ElementFollowedBySeparator | src/main/java/edu/hm/renderer/ArrayRenderer.java:17-20 | every element, the last included, is followed by `, `, with earlier elements before it and later ones after |
| ArrayRenderer.ElementsRoundTrip | src/main/java/edu/hm/renderer/ArrayRenderer.java:17-20 | the builder's text reads back as the array's elements |
| ArrayRenderer.RenderRoundTrip | src/main/java/edu/hm/renderer/ArrayRenderer.java:7-22 | the rendered text reads back as the array |
| ArrayRenderer.RenderInjective | src/main/java/edu/hm/renderer/ArrayRenderer.java:7-22 | two arrays render alike only when they are equal |
| ArrayRenderer.RenderOneTwoThree | src/test/java/edu/hm/cs/swa/demo/RendererTest.java:22 | `{1, 2, 3}` renders as `(Type int[]): [1, 2, 3, ]\n` |
| Scenario.SomeClassRendering | src/test/java/edu/hm/cs/swa/demo/RendererTestParameterized.java:44-75 | for every int `foo`, `SomeClass(foo)` renders as the header, then `foo (Type int): <foo>`, the delegated array line and the date line. This holds with the delegated path corrected for either visibility of `array`, and as the source is written when `array` is readable |
| Scenario.SomeClassPrivateArrayAsWritten | src/main/java/edu/hm/cs/swa/demo/Renderer.java:177 | as the source is written, a private `array` makes the whole render of `SomeClass` fail with an access error naming `array` |
| Scenario.RendererTestExpectation | src/test/java/edu/hm/cs/swa/demo/RendererTest.java:20-27 | with `foo == 5` and a readable `array`, the output is the one `RendererTest` expects, both as written and as corrected |
| Scenario.BoundaryValueTexts | src/test/java/edu/hm/cs/swa/demo/RendererTestParameterized.java:61-74 | 0, `Integer.MAX_VALUE` and `Integer.MIN_VALUE` print as `0`, `2147483647` and `-2147483648` |

## Where the documentation and the code differ

- The documentation of `renderMethods` (Renderer.java:183) speaks of methods
  without arguments. The code never looks at parameters, and the model follows
  the code. A `Method` therefore carries no parameter list. Nothing is invoked,
  so an annotated non-void method with parameters is listed like any other.
- On the delegated path the renderer adds no newline (Renderer.java:179). A
  plugin must end its own output with one, as `ArrayRenderer` does. The model
  keeps this, and `DelegatedLinePassThrough` states it.
- `getClass` cannot fail, so the model has no error for the target's type.

## Left out

- Reflection itself (`getDeclaredFields`, `getDeclaredMethods`,
  `Class.forName`, `newInstance`, `getMethod`, `invoke`): replaced by the
  metadata datatypes and the plugin map. Declaration order is taken as given,
  since the JVM does not guarantee one.
- `toString()` of field values: the text is opaque. A `toString()` that throws
  is not modelled; the only failure on the standard path is a null value.
- The text of `Class.toString()` for return types is opaque; only the test
  against `"void"` is modelled.
- Exceptions thrown from inside a plugin's constructor are not modelled. A plugin
  class is either constructible, or fails with an instantiation or access error.
- `SecurityException` from `setAccessible` is not modelled: there is no
  security manager in this setting.
- `Method.invoke`'s `IllegalArgumentException` for an argument of the wrong
  type is not modelled. `getMethod` already matched the field's declared type,
  so it cannot arise for a well-typed field.
- Retention and target of the `@RenderMe` annotation: only its presence and its
  `with` text matter. `Metadata.RenderMe` gives an omitted `with` the value `""`.
- The test fixture `SomeClass` is not part of this model. `Scenario.SomeClass`
  is built from the expected output of the tests. Its date text is a
  parameter, since `Date.toString()` depends on the time zone.
- Determinism and non-mutation need no lemmas. Every operation is a pure
  function. `ArrayRenderer.RenderIntArray` has no `modifies` clause, so it
  cannot change the array.
- Renderer.Render: uses the corrected delegated path (see Findings). For a
  private field with a plugin it succeeds, where the source as written fails
  with `IllegalAccessException`.
  `Renderer.RenderAsWritten` is the render as the source writes it, and the
  `...AsWritten` lemmas relate the two.
- Renderer.RenderField: states the corrected delegated path. As written, a
  non-empty `with` on an unreadable field whose plugin resolves fails with an
  access error that names no plugin class; `Renderer.FieldPartAsWritten` is
  the as-written counterpart, and its resolution errors are the same.
- Renderer.UseExternalFieldRenderer: states the corrected delegated path. As
  written, an unreadable field fails with an access error once the plugin
  resolves; `Renderer.UseExternalFieldRendererAsWritten` models that.
- RendererProperties.VisibilityIrrelevant: holds for the corrected delegated
  path only. As written, visibility matters for delegated fields, as
  `RendererProperties.RenderAsWrittenRefusesPrivate` states.

## Findings

| source | as written | input that shows it | evidently intended | confidence | as-written member | corrected member |
|---|---|---|---|---|---|---|
| src/main/java/edu/hm/cs/swa/demo/Renderer.java:177 | `useExternalFieldRenderer` calls `field.get(objectToRender)` without `field.setAccessible(true)`. Only the standard path overrides the access checks (line 132) | a private `int[]` field annotated `@RenderMe(with = "edu.hm.renderer.ArrayRenderer")` gets `IllegalAccessException` instead of `array (Type int[]): [1, 2, 3, ]` | private fields render through a plugin just as through the standard format | medium, not executed | Renderer.UseExternalFieldRendererAsWritten and Renderer.RenderAsWritten (shown by Scenario.PrivateDelegatedFieldAsWritten and Scenario.SomeClassPrivateArrayAsWritten) | Renderer.UseExternalFieldRenderer (with RendererProperties.VisibilityIrrelevant) |

=== FILE: array_renderer.dfy ===
/** The sample plugin `edu.hm.renderer.ArrayRenderer`: it renders an `int[]`
    as `(Type int[]): [e1, e2, ..., ]` followed by a newline, every element
    (the last one included) followed by ", ". */
module ArrayRenderer {
  import opened Wrappers
  import opened Decimal
  import opened Text

  /** The text of the format template before and after its `%s` slot. */
  const Prefix := "(Type int[]): ["
  const Suffix := "]\n"
  const Separator := ", "

  /** What the builder loop appends for one element. */
  function Item(x: int): string {
    IntToString(x) + Separator
  }

  /** The builder's contents after appending every element of `a`, in order. */
  function ElementsText(a: seq<Int32>): string
  {
    if |a| == 0 then "" else Item(a[0]) + ElementsText(a[1..])
  }

  /** `render(int[])`: the builder's contents substituted into the template. */
  function Render(a: seq<Int32>): (r: string)
    ensures |r| >= |Prefix| + |Suffix|
    ensures r[..|Prefix|] == Prefix
    ensures r[|r| - |Suffix|..] == Suffix
    ensures |a| == 0 <==> r == "(Type int[]): []\n"
  {
    Prefix + ElementsText(a) + Suffix
  }

  /** The same computation as the source writes it: a loop over the array
      that appends each element and ", " to a builder. The array is only read. */
  method RenderIntArray(a: array<Int32>) returns (s: string)
    ensures s == Render(a[..])
  {
    var builder := "";
    for i := 0 to a.Length
      invariant builder == ElementsText(a[..i])
    {
      AppendElement(a[..i], a[i]);
      assert a[..i + 1] == a[..i] + [a[i]];
      builder := builder + IntToString(a[i]) + Separator;
    }
    assert a[..a.Length] == a[..];
    s := Prefix + builder + Suffix;
  }

  lemma {:induction false} ElementsConcat(a: seq<Int32>, b: seq<Int32>)
    ensures ElementsText(a + b) == ElementsText(a) + ElementsText(b)
    decreases |a|
  {
    if |a| == 0 {
      assert a + b == b;
    } else {
      assert (a + b)[0] == a[0];
      assert (a + b)[1..] == a[1..] + b;
      ElementsConcat(a[1..], b);
    }
  }

  /** Appending `x` to the elements appends exactly its item to the builder. */
  lemma AppendElement(a: seq<Int32>, x: Int32)
    ensures ElementsText(a + [x]) == ElementsText(a) + IntToString(x) + ", "
  {
    ElementsConcat(a, [x]);
    assert [x][1..] == [];
  }

  /** Appending `x` to the array inserts `str(x) + ", "` right before the
      closing "]\n", leaving everything before it unchanged. */
  lemma RenderAppend(a: seq<Int32>, x: Int32)
    ensures Render(a + [x]) == Render(a)[..|Render(a)| - |Suffix|] + IntToString(x) + ", " + Suffix
  {
    var e, d := ElementsText(a), IntToString(x);
    assert Render(a + [x]) == Prefix + (e + (d + ", ")) + Suffix by {
      AppendElement(a, x);
      assert e + d + ", " == e + (d + ", ");
    }
    assert Render(a)[..|Render(a)| - |Suffix|] == Prefix + e by {
      DropSuffix(Prefix + e, Suffix);
    }
    Regroup(Prefix, e, d + ", ", Suffix);
  }

  lemma DropSuffix(b: string, s: string)
    ensures (b + s)[..|b + s| - |s|] == b
  {
  }

  lemma Regroup(p: string, e: string, d: string, s: string)
    ensures p + (e + d) + s == (p + e) + d + s
  {
  }

  /** Every element, the last one included, is followed by ", ". */
  lemma ElementFollowedBySeparator(a: seq<Int32>, i: nat)
    requires i < |a|
    ensures ElementsText(a) == ElementsText(a[..i]) + IntToString(a[i]) + ", " + ElementsText(a[i + 1..])
  {
    SplitAround(a, i);
    ElementsConcat(a[..i] + [a[i]], a[i + 1..]);
    AppendElement(a[..i], a[i]);
  }

  lemma SplitAround(a: seq<Int32>, i: nat)
    requires i < |a|
    ensures a == (a[..i] + [a[i]]) + a[i + 1..]
  {
  }

  /** Reads back a run of "<decimal>, " items. */
  function ParseElements(s: string): Option<seq<int>>
    decreases |s|
  {
    if |s| == 0 then Some([])
    else
      var i := IndexOf(s, ',');
      if i + 1 < |s| && s[i + 1] == ' ' then
        match ParseInt(s[..i])
        case None => None
        case Some(x) =>
          match ParseElements(s[i + 2..])
          case None => None
          case Some(xs) => Some([x] + xs)
      else None
  }

  /** Reads back the whole rendered text. */
  function Parse(s: string): Option<seq<int>> {
    if |s| >= |Prefix| + |Suffix| && s[..|Prefix|] == Prefix && s[|s| - |Suffix|..] == Suffix
    then ParseElements(s[|Prefix|..|s| - |Suffix|])
    else None
  }

  lemma {:induction false} ElementsRoundTrip(a: seq<Int32>)
    ensures ParseElements(ElementsText(a)) == Some(a)
    decreases |a|
  {
    if |a| > 0 {
      ElementsRoundTrip(a[1..]);
      ParseItem(a[0], ElementsText(a[1..]), a[1..]);
      HeadTail(a);
    }
  }

  lemma HeadTail(a: seq<Int32>)
    requires |a| > 0
    ensures [a[0]] + a[1..] == a
  {
  }

  /** One item in front of text that reads back as `xs` reads back as `[x] + xs`. */
  lemma ParseItem(x: Int32, rest: string, xs: seq<int>)
    requires ParseElements(rest) == Some(xs)
    ensures ParseElements(Item(x) + rest) == Some([x] + xs)
  {
    var d := IntToString(x);
    var s := Item(x) + rest;
    assert s == d + [','] + ([' '] + rest);
    NoSeparatorInDecimal(x);
    IndexOfAfterPrefix(d, ',', [' '] + rest);
    assert s[..|d|] == d;
    assert s[|d| + 2..] == rest;
    IntRoundTrip(x);
  }

  /** The rendered text determines the array: reading it back gives the elements. */
  lemma RenderRoundTrip(a: seq<Int32>)
    ensures Parse(Render(a)) == Some(a)
  {
    var r := Render(a);
    assert r[|Prefix|..|r| - |Suffix|] == ElementsText(a);
    ElementsRoundTrip(a);
  }

  /** Equal renderings come only from equal arrays. */
  lemma RenderInjective(a: seq<Int32>, b: seq<Int32>)
    requires Render(a) == Render(b)
    ensures a == b
  {
    RenderRoundTrip(a);
    RenderRoundTrip(b);
  }

  /** The sample from the repository's test: {1, 2, 3} renders as "[1, 2, 3, ]". */
  lemma RenderOneTwoThree()
    ensures Render([1, 2, 3]) == "(Type int[]): [1, 2, 3, ]\n"
  {
    var a: seq<Int32> := [1, 2, 3];
    assert a[1..] == [2, 3];
    assert a[1..][1..] == [3];
    assert a[1..][1..][1..] == [];
  }
}

=== FILE: decimal.dfy ===
/** Decimal text of integers, as produced by Java's `Integer.toString` and by
    `StringBuilder.append(int)`: an optional leading '-' followed by the digits
    of the magnitude, without leading zeros. `ParseInt` is its inverse. */
module Decimal {
  import opened Wrappers

  /** Java's 32-bit `int`. */
  type Int32 = x: int | -0x8000_0000 <= x < 0x8000_0000

  const MinInt32: Int32 := -0x8000_0000
  const MaxInt32: Int32 := 0x7fff_ffff

  predicate IsDigit(c: char) {
    '0' <= c <= '9'
  }

  predicate AllDigits(s: string) {
    forall i :: 0 <= i < |s| ==> IsDigit(s[i])
  }

  function DigitChar(d: nat): (c: char)
    requires d < 10
    ensures IsDigit(c)
  {
    ('0' as int + d) as char
  }

  function DigitValue(c: char): (d: nat)
    requires IsDigit(c)
    ensures d < 10 && DigitChar(d) == c
  {
    c as int - '0' as int
  }

  /** The digits of `n`, most significant first. */
  function NatToString(n: nat): (s: string)
    ensures |s| > 0 && AllDigits(s)
    ensures (|s| == 1) <==> (n < 10)
    ensures s[0] == '0' <==> n == 0
    decreases n
  {
    if n < 10 then [DigitChar(n)] else NatToString(n / 10) + [DigitChar(n % 10)]
  }

  /** Java's `Integer.toString(n)`. */
  function IntToString(n: int): (s: string)
    ensures |s| > 0
    ensures s[0] == '-' <==> n < 0
    ensures forall i :: 0 < i < |s| ==> IsDigit(s[i])
    ensures IsDigit(s[0]) <==> 0 <= n
    ensures 0 <= n ==> (s[0] == '0' <==> n == 0)
    ensures n < 0 ==> |s| > 1 && s[1] != '0'
    ensures s[0] == '0' ==> s == "0"
  {
    if n < 0 then "-" + NatToString(-n) else NatToString(n)
  }

  /** The value of a non-empty string of digits. */
  function ParseNat(s: string): nat
    requires |s| > 0 && AllDigits(s)
  {
    if |s| == 1 then DigitValue(s[0])
    else 10 * ParseNat(s[..|s| - 1]) + DigitValue(s[|s| - 1])
  }

  /** Reads back an optional '-' followed by at least one digit. */
  function ParseInt(s: string): Option<int>
  {
    if |s| > 1 && s[0] == '-' && AllDigits(s[1..]) then Some(-(ParseNat(s[1..]) as int))
    else if |s| > 0 && AllDigits(s) then Some(ParseNat(s))
    else None
  }

  lemma {:induction false} NatRoundTrip(n: nat)
    ensures ParseNat(NatToString(n)) == n
    decreases n
  {
    if n >= 10 {
      var s := NatToString(n);
      assert s[..|s| - 1] == NatToString(n / 10);
      NatRoundTrip(n / 10);
    }
  }

  /** Decimal text is injective: reading it back yields the integer written. */
  lemma IntRoundTrip(n: int)
    ensures ParseInt(IntToString(n)) == Some(n)
  {
    if n < 0 {
      NatRoundTrip(-n);
      ParseNegative(NatToString(-n));
    } else {
      NatRoundTrip(n);
      ParseDigits(NatToString(n));
    }
  }

  lemma ParseNegative(t: string)
    requires |t| > 0 && AllDigits(t)
    ensures ParseInt("-" + t) == Some(-(ParseNat(t) as int))
  {
    assert ("-" + t)[1..] == t;
  }

  lemma ParseDigits(t: string)
    requires |t| > 0 && AllDigits(t)
    ensures ParseInt(t) == Some(ParseNat(t))
  {
    assert IsDigit(t[0]);
  }

  /** Decimal text never contains the separator characters of the array format. */
  lemma NoSeparatorInDecimal(n: int)
    ensures ',' !in IntToString(n) && ' ' !in IntToString(n)
  {
  }
}

=== FILE: metadata.dfy ===
/** What the renderer learns about an object through reflection, as plain
    data: the target's type name, its declared fields and methods in the order
    reflection reports them, and the plugin classes that can be loaded by name. */
module Metadata {
  import opened Wrappers
  import opened Decimal

  /** The `@RenderMe` annotation; only its `with` attribute carries data. */
  datatype Marker = Marker(with: string)

  /** `@RenderMe` as written on a member: an omitted `with` reads as "". */
  function RenderMe(with: Option<string>): Marker {
    match with
    case Some(w) => Marker(w)
    case None => Marker("")
  }

  /** A `Class` object seen as a field's declared type. `canonicalName` is
      absent for types that have none (local and anonymous classes). */
  datatype TypeDesc = TypeDesc(isPrimitive: bool, simpleName: string, canonicalName: Option<string>)

  /** A field's current value. `text` is what the value's `toString()` returns;
      an `int[]` also exposes its elements to plugins that accept arrays. */
  datatype Value =
    | Null
    | Object(text: string)
    | IntArray(elements: seq<Int32>, text: string)

  /** A declared field. `readable` says whether `Field.get` succeeds without
      first overriding Java's access checks (false for a private field). */
  datatype Field = Field(name: string, fieldType: TypeDesc, marker: Option<Marker>, readable: bool, value: Value)

  /** A declared method. `returnType` is the text of its return type's `Class`
      object (`"void"`, `"int"`, `"class java.lang.String"`, ...). */
  datatype Method = Method(name: string, marker: Option<Marker>, returnType: string)

  /** The object handed to the renderer. */
  datatype Target = Target(canonicalName: Option<string>, fields: seq<Field>, methods: seq<Method>)

  /** Whether `Class.newInstance` can call the plugin's no-argument constructor. */
  datatype Constructor = Accessible | Inaccessible | Missing

  /** What one call of a plugin's `render` does. */
  datatype PluginOutcome = Returned(text: string) | ReturnedNull | ReturnedNonString | Threw

  /** A loadable plugin class: its constructor and its public one-argument
      `render` methods, keyed by their exact parameter type. */
  datatype PluginClass = PluginClass(ctor: Constructor, renderMethods: map<TypeDesc, Value -> PluginOutcome>)

  /** The classes `Class.forName` can load, by fully qualified name. */
  type Plugins = map<string, PluginClass>

  /** The exceptions that leave the renderer, one constructor per cause. */
  datatype Error =
    | IllegalArgument                          // null target given to the constructor
    | ClassNotFound(className: string)         // `with` names no loadable class
    | Instantiation(className: string)         // the plugin has no usable no-argument constructor
    | ConstructorNotAccessible(className: string)
    | NoSuchMethod(className: string)          // no `render` taking the field's exact type
    | FieldNotAccessible(fieldName: string)    // `Field.get` refused by the access checks
    | InvocationTarget(className: string)      // the plugin's `render` threw
    | ClassCast(className: string)             // the plugin's `render` returned a non-String
    | NullPointer(fieldName: string)           // `toString()` called on a null field value
}

=== FILE: renderer.dfy ===
/** `edu.hm.cs.swa.demo.Renderer`: renders an object as a header line, one
    line per `@RenderMe` field and one line per `@RenderMe` method that does not
    return void. One function per method of the Java class. */
module Renderer {
  import opened Wrappers
  import opened Text
  import opened Metadata

  /** A constructed renderer: it holds the (non-null) object to render. */
  datatype Instance = Instance(objectToRender: Target)

  /** The constructor: a null target is refused with an illegal-argument error. */
  function New(target: Option<Target>): (r: Result<Instance, Error>)
    ensures r.Failure? <==> target.None?
    ensures r.Failure? ==> r.error == IllegalArgument
    ensures r.Success? ==> r.value.objectToRender == target.value
  {
    match target
    case None => Failure(IllegalArgument)
    case Some(t) => Success(Instance(t))
  }

  /** Appending to a builder while exceptions may occur: the first failure wins. */
  function Join(a: Result<string, Error>, b: Result<string, Error>): Result<string, Error> {
    match a
    case Failure(e) => Failure(e)
    case Success(x) =>
      match b
      case Failure(e) => Failure(e)
      case Success(y) => Success(x + y)
  }

  /** `render()`: header, then fields, then methods. */
  function Render(r: Instance, plugins: Plugins): (out: Result<string, Error>)
    ensures out.Success? <==>
              forall i :: 0 <= i < |r.objectToRender.fields| ==> FieldPart(r.objectToRender.fields[i], plugins).Success?
    ensures out.Failure? ==>
              exists i :: 0 <= i < |r.objectToRender.fields|
                          && FieldPart(r.objectToRender.fields[i], plugins) == Failure(out.error)
                          && forall j :: 0 <= j < i ==> FieldPart(r.objectToRender.fields[j], plugins).Success?
    ensures out.Success? ==> |out.value| >= |RenderInstanceName(r.objectToRender)|
                             && out.value[..|RenderInstanceName(r.objectToRender)|] == RenderInstanceName(r.objectToRender)
  {
    var t := r.objectToRender;
    var header := RenderInstanceName(t);
    var fields :- RenderFields(t.fields, plugins);
    Success(header + fields + RenderMethods(t.methods))
  }

  /** `renderInstanceName`: "Instance of <canonical name>:\n". */
  function RenderInstanceName(t: Target): (r: string)
    ensures |r| >= 14
    ensures r[..12] == "Instance of "
    ensures r[12..|r| - 2] == NullText(t.canonicalName)
    ensures r[|r| - 2..] == ":\n"
  {
    "Instance of " + NullText(t.canonicalName) + ":\n"
  }

  /** What one declared field adds to the output: nothing unless it is annotated. */
  function FieldPart(f: Field, plugins: Plugins): Result<string, Error> {
    if f.marker.None? then Success("") else RenderField(f, plugins)
  }

  /** `renderFields`: the annotated fields in declaration order; any failure
      aborts with the error of the first field that fails. */
  function RenderFields(fs: seq<Field>, plugins: Plugins): (r: Result<string, Error>)
    ensures r.Success? <==> forall i :: 0 <= i < |fs| ==> FieldPart(fs[i], plugins).Success?
    ensures r.Failure? ==>
              exists i :: 0 <= i < |fs|
                          && FieldPart(fs[i], plugins) == Failure(r.error)
                          && forall j :: 0 <= j < i ==> FieldPart(fs[j], plugins).Success?
  {
    if |fs| == 0 then Success("")
    else
      Join(FieldPart(fs[0], plugins), RenderFields(fs[1..], plugins))
  }

  /** `renderField`: an empty `with` selects the standard format, any other
      value names the plugin class to delegate to. */
  function RenderField(f: Field, plugins: Plugins): (r: Result<string, Error>)
    requires f.marker.Some?
    ensures f.marker.value.with == "" ==> (r.Success? <==> !f.value.Null?)
    ensures f.marker.value.with == "" && r.Failure? ==> r.error == NullPointer(f.name)
    ensures f.marker.value.with != "" ==>
              (r.Success? <==>
                 && ResolveRender(f.marker.value.with, f.fieldType, plugins).Success?
                 && var outcome := ResolveRender(f.marker.value.with, f.fieldType, plugins).value(f.value);
                    outcome.Returned? || outcome.ReturnedNull?)
    ensures f.marker.value.with != "" && r.Failure? ==> PluginError(r.error, f.marker.value.with)
    ensures f.marker.value.with != "" && f.marker.value.with !in plugins ==>
              r == Failure(ClassNotFound(f.marker.value.with))
    ensures var w := f.marker.value.with;
            w != "" && w in plugins && plugins[w].ctor.Missing? ==> r == Failure(Instantiation(w))
    ensures var w := f.marker.value.with;
            w != "" && w in plugins && plugins[w].ctor.Inaccessible? ==> r == Failure(ConstructorNotAccessible(w))
    ensures var w := f.marker.value.with;
            w != "" && w in plugins && plugins[w].ctor.Accessible? && f.fieldType !in plugins[w].renderMethods ==>
              r == Failure(NoSuchMethod(w))
    ensures var w := f.marker.value.with;
            w != "" && w in plugins && plugins[w].ctor.Accessible? && f.fieldType in plugins[w].renderMethods
            && plugins[w].renderMethods[f.fieldType](f.value).Threw? ==>
              r == Failure(InvocationTarget(w))
    ensures var w := f.marker.value.with;
            w != "" && w in plugins && plugins[w].ctor.Accessible? && f.fieldType in plugins[w].renderMethods
            && plugins[w].renderMethods[f.fieldType](f.value).ReturnedNonString? ==>
              r == Failure(ClassCast(w))
  {
    var with := f.marker.value.with;
    if with == "" then UseStandardFieldRenderer(f) else UseExternalFieldRenderer(with, f, plugins)
  }

  /** `useStandardFieldRenderer`: "<name> (Type <label>): <value>\n". Access
      checks are overridden first, so private fields render like public ones;
      a null value fails when its `toString()` is called. */
  function UseStandardFieldRenderer(f: Field): (r: Result<string, Error>)
    ensures r.Success? <==> !f.value.Null?
    ensures r.Failure? ==> r.error == NullPointer(f.name)
    ensures r.Success? ==> |r.value| > 0 && r.value[|r.value| - 1] == '\n'
  {
    match f.value
    case Null => Failure(NullPointer(f.name))
    case _ => Success(f.name + " (Type " + GetTypeOfField(f.fieldType) + "): " + f.value.text + "\n")
  }

  /** `getTypeOfField`: the simple name of a primitive type, otherwise the
      canonical name ("null" when the type has none). */
  function GetTypeOfField(t: TypeDesc): (r: string)
    ensures t.isPrimitive ==> r == t.simpleName
    ensures !t.isPrimitive && t.canonicalName.Some? ==> r == t.canonicalName.value
    ensures !t.isPrimitive && t.canonicalName.None? ==> r == "null"
  {
    if t.isPrimitive then t.simpleName else NullText(t.canonicalName)
  }

  /** `Class.forName`, `newInstance` and `getMethod("render", fieldType)`, in
      that order: the first step that fails decides the error. */
  function ResolveRender(className: string, fieldType: TypeDesc, plugins: Plugins): (r: Result<Value -> PluginOutcome, Error>)
    ensures r.Success? <==>
              className in plugins && plugins[className].ctor.Accessible? && fieldType in plugins[className].renderMethods
    ensures r.Success? ==> r.value == plugins[className].renderMethods[fieldType]
    ensures className !in plugins ==> r == Failure(ClassNotFound(className))
    ensures className in plugins && plugins[className].ctor.Missing? ==> r == Failure(Instantiation(className))
    ensures className in plugins && plugins[className].ctor.Inaccessible? ==>
              r == Failure(ConstructorNotAccessible(className))
    ensures r.Failure? ==> PluginError(r.error, className)
                           && r.error != InvocationTarget(className) && r.error != ClassCast(className)
  {
    if className !in plugins then Failure(ClassNotFound(className))
    else
      var cls := plugins[className];
      match cls.ctor
      case Missing => Failure(Instantiation(className))
      case Inaccessible => Failure(ConstructorNotAccessible(className))
      case Accessible =>
        if fieldType in cls.renderMethods then Success(cls.renderMethods[fieldType])
        else Failure(NoSuchMethod(className))
  }

  /** `Method.invoke` followed by the cast to `String`; a null result becomes
      the text "null" once concatenated. */
  function Invoke(className: string, outcome: PluginOutcome): (r: Result<string, Error>)
    ensures r.Success? <==> outcome.Returned? || outcome.ReturnedNull?
    ensures r.Success? ==> r.value == PluginText(outcome)
    ensures outcome.Threw? ==> r == Failure(InvocationTarget(className))
    ensures outcome.ReturnedNonString? ==> r == Failure(ClassCast(className))
  {
    match outcome
    case Returned(text) => Success(text)
    case ReturnedNull => Success("null")
    case ReturnedNonString => Failure(ClassCast(className))
    case Threw => Failure(InvocationTarget(className))
  }

  /** The text a successful plugin call contributes. */
  function PluginText(outcome: PluginOutcome): string
    requires outcome.Returned? || outcome.ReturnedNull?
  {
    if outcome.Returned? then outcome.text else "null"
  }

  /** The errors of the delegated path: each names the plugin class. Neither
      a null value nor the field's visibility can cause one. */
  predicate PluginError(e: Error, className: string) {
    e in {ClassNotFound(className), Instantiation(className), ConstructorNotAccessible(className),
          NoSuchMethod(className), InvocationTarget(className), ClassCast(className)}
  }

  /** `useExternalFieldRenderer` as the source writes it: the field is read
      without overriding the access checks, so a private field fails. */
  function UseExternalFieldRendererAsWritten(className: string, f: Field, plugins: Plugins): (r: Result<string, Error>)
    ensures ResolveRender(className, f.fieldType, plugins).Failure? ==>
              r == Failure(ResolveRender(className, f.fieldType, plugins).error)
    ensures !f.readable && ResolveRender(className, f.fieldType, plugins).Success? ==>
              r == Failure(FieldNotAccessible(f.name))
    ensures f.readable ==> r == UseExternalFieldRenderer(className, f, plugins)
  {
    var render :- ResolveRender(className, f.fieldType, plugins);
    if !f.readable then Failure(FieldNotAccessible(f.name))
    else
      var text :- Invoke(className, render(f.value));
      Success(f.name + " " + text)
  }

  /** `useExternalFieldRenderer` with the field read the way the standard
      path reads it: "<name> " followed by the plugin's text, unchanged. */
  function UseExternalFieldRenderer(className: string, f: Field, plugins: Plugins): (r: Result<string, Error>)
    ensures r.Success? <==>
              && ResolveRender(className, f.fieldType, plugins).Success?
              && var outcome := ResolveRender(className, f.fieldType, plugins).value(f.value);
                 outcome.Returned? || outcome.ReturnedNull?
    ensures r.Success? ==>
              r.value == f.name + " " + PluginText(ResolveRender(className, f.fieldType, plugins).value(f.value))
    ensures r.Failure? ==> PluginError(r.error, className)
    ensures className !in plugins ==> r == Failure(ClassNotFound(className))
    ensures className in plugins && plugins[className].ctor.Missing? ==> r == Failure(Instantiation(className))
    ensures className in plugins && plugins[className].ctor.Inaccessible? ==>
              r == Failure(ConstructorNotAccessible(className))
    ensures className in plugins && plugins[className].ctor.Accessible? && f.fieldType !in plugins[className].renderMethods ==>
              r == Failure(NoSuchMethod(className))
    ensures className in plugins && plugins[className].ctor.Accessible? && f.fieldType in plugins[className].renderMethods
            && plugins[className].renderMethods[f.fieldType](f.value).Threw? ==>
              r == Failure(InvocationTarget(className))
    ensures className in plugins && plugins[className].ctor.Accessible? && f.fieldType in plugins[className].renderMethods
            && plugins[className].renderMethods[f.fieldType](f.value).ReturnedNonString? ==>
              r == Failure(ClassCast(className))
  {
    var render :- ResolveRender(className, f.fieldType, plugins);
    var text :- Invoke(className, render(f.value));
    Success(f.name + " " + text)
  }

  /** `renderField` with the delegated path as the source writes it. It
      agrees with the corrected path except on a delegated field the access
      checks refuse. */
  function FieldPartAsWritten(f: Field, plugins: Plugins): (r: Result<string, Error>)
    ensures f.marker.None? ==> r == Success("")
    ensures f.marker.Some? && (f.marker.value.with == "" || f.readable) ==> r == RenderField(f, plugins)
    ensures f.marker.Some? && f.marker.value.with != "" && !f.readable ==> r.Failure?
    ensures f.marker.Some? && f.marker.value.with != "" && !f.readable ==>
              (r.error == FieldNotAccessible(f.name) <==> ResolveRender(f.marker.value.with, f.fieldType, plugins).Success?)
  {
    if f.marker.None? then Success("")
    else if f.marker.value.with == "" then UseStandardFieldRenderer(f)
    else UseExternalFieldRendererAsWritten(f.marker.value.with, f, plugins)
  }

  /** `renderFields` with the delegated path as the source writes it. */
  function RenderFieldsAsWritten(fs: seq<Field>, plugins: Plugins): (r: Result<string, Error>)
    ensures r.Success? <==> forall i :: 0 <= i < |fs| ==> FieldPartAsWritten(fs[i], plugins).Success?
    ensures r.Failure? ==>
              exists i :: 0 <= i < |fs|
                          && FieldPartAsWritten(fs[i], plugins) == Failure(r.error)
                          && forall j :: 0 <= j < i ==> FieldPartAsWritten(fs[j], plugins).Success?
  {
    if |fs| == 0 then Success("")
    else
      Join(FieldPartAsWritten(fs[0], plugins), RenderFieldsAsWritten(fs[1..], plugins))
  }

  /** `render()` with the delegated path as the source writes it. */
  function RenderAsWritten(r: Instance, plugins: Plugins): (out: Result<string, Error>)
    ensures out.Success? <==>
              forall i :: 0 <= i < |r.objectToRender.fields| ==> FieldPartAsWritten(r.objectToRender.fields[i], plugins).Success?
    ensures out.Failure? ==>
              exists i :: 0 <= i < |r.objectToRender.fields|
                          && FieldPartAsWritten(r.objectToRender.fields[i], plugins) == Failure(out.error)
                          && forall j :: 0 <= j < i ==> FieldPartAsWritten(r.objectToRender.fields[j], plugins).Success?
    ensures out.Success? ==> |out.value| >= |RenderInstanceName(r.objectToRender)|
                             && out.value[..|RenderInstanceName(r.objectToRender)|] == RenderInstanceName(r.objectToRender)
  {
    var t := r.objectToRender;
    var header := RenderInstanceName(t);
    var fields :- RenderFieldsAsWritten(t.fields, plugins);
    Success(header + fields + RenderMethods(t.methods))
  }

  /** `renderMethods`: the annotated methods that do not return void, in
      declaration order. */
  function RenderMethods(ms: seq<Method>): (r: string)
    ensures r == "" <==> forall i :: 0 <= i < |ms| ==> !IsRendered(ms[i])
  {
    if |ms| == 0 then ""
    else (if IsRendered(ms[0]) then RenderMethod(ms[0]) else "") + RenderMethods(ms[1..])
  }

  /** The filter of `renderMethods`. The source does not look at the number
      of parameters, whatever its documentation says. */
  predicate IsRendered(m: Method) {
    m.marker.Some? && !MethodReturnsVoid(m)
  }

  /** `renderMethod`: "<name> returns: <return type>\n". Nothing is invoked. */
  function RenderMethod(m: Method): (r: string)
    ensures |r| == |m.name| + |m.returnType| + 11
    ensures r[..|m.name|] == m.name
    ensures r[|m.name|..|m.name| + 10] == " returns: "
    ensures r[|m.name| + 10..|r| - 1] == m.returnType
    ensures r[|r| - 1] == '\n'
  {
    m.name + " returns: " + m.returnType + "\n"
  }

  /** `methodReturnsVoid`: the return type's text is exactly "void". */
  predicate MethodReturnsVoid(m: Method)
    ensures MethodReturnsVoid(m) <==> m.returnType == "void"
  {
    m.returnType == "void"
  }
}

=== FILE: renderer_properties.dfy ===
/** Properties of the renderer model: how the output is assembled from the
    members in declaration order, which members contribute nothing, and the
    three line formats, each shown readable back into its parts. */
module RendererProperties {
  import opened Wrappers
  import opened Text
  import opened Metadata
  import opened Renderer

  /** Field and method names are Java identifiers: they never contain a space. */
  predicate SpaceFree(s: string) {
    ' ' !in s
  }

  // ---------------------------------------------------------------------
  // Assembly: order, filtering, failure

  lemma JoinAssociative(a: Result<string, Error>, b: Result<string, Error>, c: Result<string, Error>)
    ensures Join(Join(a, b), c) == Join(a, Join(b, c))
  {
    if a.Success? && b.Success? && c.Success? {
      assert (a.value + b.value) + c.value == a.value + (b.value + c.value);
    }
  }

  /** The fields render part by part in declaration order: rendering `a + b`
      is rendering `a`, then `b`, with the first failure winning. */
  lemma {:induction false} RenderFieldsConcat(a: seq<Field>, b: seq<Field>, plugins: Plugins)
    ensures RenderFields(a + b, plugins) == Join(RenderFields(a, plugins), RenderFields(b, plugins))
    decreases |a|
  {
    if |a| == 0 {
      assert a + b == b;
      var rb := RenderFields(b, plugins);
      if rb.Success? {
        assert "" + rb.value == rb.value;
      }
    } else {
      assert (a + b)[0] == a[0];
      assert (a + b)[1..] == a[1..] + b;
      RenderFieldsConcat(a[1..], b, plugins);
      JoinAssociative(FieldPart(a[0], plugins), RenderFields(a[1..], plugins), RenderFields(b, plugins));
    }
  }

  /** One field on its own renders to its part: its line when annotated, nothing otherwise. */
  lemma RenderOneField(f: Field, plugins: Plugins)
    ensures RenderFields([f], plugins) == (if f.marker.None? then Success("") else RenderField(f, plugins))
  {
    assert [f][1..] == [];
    var part := FieldPart(f, plugins);
    if part.Success? {
      assert part.value + "" == part.value;
    }
  }

  /** The methods render part by part in declaration order. */
  lemma {:induction false} RenderMethodsConcat(a: seq<Method>, b: seq<Method>)
    ensures RenderMethods(a + b) == RenderMethods(a) + RenderMethods(b)
    decreases |a|
  {
    if |a| == 0 {
      assert a + b == b;
    } else {
      var head := if IsRendered(a[0]) then RenderMethod(a[0]) else "";
      assert RenderMethods(a + b) == head + RenderMethods(a[1..] + b) by {
        assert (a + b)[0] == a[0];
        assert (a + b)[1..] == a[1..] + b;
      }
      assert RenderMethods(a[1..] + b) == RenderMethods(a[1..]) + RenderMethods(b) by {
        RenderMethodsConcat(a[1..], b);
      }
      ConcatAssoc(head, RenderMethods(a[1..]), RenderMethods(b));
    }
  }

  /** One method on its own renders to its line exactly when it is annotated
      and does not return void. */
  lemma RenderOneMethod(m: Method)
    ensures RenderMethods([m]) == (if m.marker.Some? && m.returnType != "void" then RenderMethod(m) else "")
  {
    assert [m][1..] == [];
  }

  /** With no annotated field, the field section is empty and cannot fail. */
  lemma {:induction false} UnannotatedFieldsRenderNothing(fs: seq<Field>, plugins: Plugins)
    requires forall i :: 0 <= i < |fs| ==> fs[i].marker.None?
    ensures RenderFields(fs, plugins) == Success("")
    decreases |fs|
  {
    if |fs| > 0 {
      assert fs[0].marker.None?;
      assert forall i :: 0 <= i < |fs[1..]| ==> fs[1..][i] == fs[i + 1];
      UnannotatedFieldsRenderNothing(fs[1..], plugins);
      assert "" + "" == "";
    }
  }

  /** A target with no annotated field and no rendered method renders to
      exactly its header line. */
  lemma NothingAnnotatedRendersHeader(t: Target, plugins: Plugins)
    requires forall i :: 0 <= i < |t.fields| ==> t.fields[i].marker.None?
    requires forall i :: 0 <= i < |t.methods| ==> !IsRendered(t.methods[i])
    ensures Render(Instance(t), plugins) == Success("Instance of " + NullText(t.canonicalName) + ":\n")
  {
    UnannotatedFieldsRenderNothing(t.fields, plugins);
  }

  /** Output layout: however the declared fields and methods are split into
      an earlier and a later part, the output is the header, the earlier
      fields, the later fields, then the earlier and the later methods. */
  lemma RenderLayout(t: Target, plugins: Plugins, fa: seq<Field>, fb: seq<Field>, ma: seq<Method>, mb: seq<Method>)
    requires t.fields == fa + fb && t.methods == ma + mb
    requires Render(Instance(t), plugins).Success?
    ensures RenderFields(fa, plugins).Success? && RenderFields(fb, plugins).Success?
    ensures Render(Instance(t), plugins).value ==
              RenderInstanceName(t)
              + (RenderFields(fa, plugins).value + RenderFields(fb, plugins).value)
              + (RenderMethods(ma) + RenderMethods(mb))
  {
    RenderFieldsConcat(fa, fb, plugins);
    RenderMethodsConcat(ma, mb);
  }

  lemma JoinEmptyRight(x: Result<string, Error>)
    ensures Join(x, Success("")) == x
  {
    if x.Success? {
      assert x.value + "" == x.value;
    }
  }

  /** `render()` sees the fields and methods only through their sections. */
  lemma RenderBySections(t: Target, u: Target, plugins: Plugins)
    requires t.canonicalName == u.canonicalName
    requires RenderFields(t.fields, plugins) == RenderFields(u.fields, plugins)
    requires RenderMethods(t.methods) == RenderMethods(u.methods)
    ensures Render(Instance(t), plugins) == Render(Instance(u), plugins)
  {
  }

  /** An unannotated field, declared anywhere, changes nothing in the result. */
  lemma UnannotatedFieldIgnored(t: Target, plugins: Plugins, i: nat, f: Field)
    requires i <= |t.fields| && f.marker.None?
    ensures Render(Instance(t.(fields := t.fields[..i] + [f] + t.fields[i..])), plugins) == Render(Instance(t), plugins)
  {
    var a, b := t.fields[..i], t.fields[i..];
    assert t.fields == a + b;
    UnannotatedFieldContributesNothing(a, f, b, plugins);
    RenderBySections(t.(fields := a + [f] + b), t, plugins);
  }

  lemma UnannotatedFieldContributesNothing(a: seq<Field>, f: Field, b: seq<Field>, plugins: Plugins)
    requires f.marker.None?
    ensures RenderFields(a + [f] + b, plugins) == RenderFields(a + b, plugins)
  {
    assert RenderFields(a + [f], plugins) == RenderFields(a, plugins) by {
      RenderFieldsConcat(a, [f], plugins);
      RenderOneField(f, plugins);
      JoinEmptyRight(RenderFields(a, plugins));
    }
    RenderFieldsConcat(a + [f], b, plugins);
    RenderFieldsConcat(a, b, plugins);
  }

  /** A method that is not annotated, or returns void, changes nothing in the
      result wherever it is declared. */
  lemma HiddenMethodIgnored(t: Target, plugins: Plugins, k: nat, m: Method)
    requires k <= |t.methods| && !IsRendered(m)
    ensures Render(Instance(t.(methods := t.methods[..k] + [m] + t.methods[k..])), plugins) == Render(Instance(t), plugins)
  {
    var a, b := t.methods[..k], t.methods[k..];
    assert t.methods == a + b;
    HiddenMethodContributesNothing(a, m, b);
    RenderBySections(t.(methods := a + [m] + b), t, plugins);
  }

  lemma HiddenMethodContributesNothing(a: seq<Method>, m: Method, b: seq<Method>)
    requires !IsRendered(m)
    ensures RenderMethods(a + [m] + b) == RenderMethods(a + b)
  {
    assert RenderMethods(a + [m]) == RenderMethods(a) by {
      RenderMethodsConcat(a, [m]);
      RenderOneMethod(m);
      assert RenderMethods(a) + "" == RenderMethods(a);
    }
    RenderMethodsConcat(a + [m], b);
    RenderMethodsConcat(a, b);
  }

  /** Methods never make rendering fail: the methods section is the same
      whatever the fields do, and only annotated fields can abort the call. */
  lemma MethodsNeverFail(t: Target, plugins: Plugins, ms: seq<Method>)
    ensures Render(Instance(t.(methods := ms)), plugins).Success? == Render(Instance(t), plugins).Success?
  {
  }

  // ---------------------------------------------------------------------
  // Field dispatch

  /** An empty `with` never consults the plugin classes. */
  lemma EmptyWithIgnoresPlugins(f: Field, p1: Plugins, p2: Plugins)
    requires f.marker.Some? && f.marker.value.with == ""
    ensures RenderField(f, p1) == RenderField(f, p2)
    ensures RenderField(f, p1) == UseStandardFieldRenderer(f)
  {
  }

  /** `gs` declares the same fields as `fs`, except perhaps for their visibility. */
  predicate SameExceptVisibility(fs: seq<Field>, gs: seq<Field>) {
    |fs| == |gs| && forall i :: 0 <= i < |fs| ==> gs[i] == fs[i].(readable := gs[i].readable)
  }

  /** Private and public fields render alike, on both the standard and the
      delegated path (the delegated path as corrected). */
  lemma {:induction false} VisibilityIrrelevant(fs: seq<Field>, gs: seq<Field>, plugins: Plugins)
    requires SameExceptVisibility(fs, gs)
    ensures RenderFields(fs, plugins) == RenderFields(gs, plugins)
    decreases |fs|
  {
    if |fs| > 0 {
      assert gs[0] == fs[0].(readable := gs[0].readable);
      assert FieldPart(fs[0], plugins) == FieldPart(gs[0], plugins);
      assert SameExceptVisibility(fs[1..], gs[1..]) by {
        forall i | 0 <= i < |fs[1..]|
          ensures gs[1..][i] == fs[1..][i].(readable := gs[1..][i].readable)
        {
          assert gs[1..][i] == gs[i + 1] && fs[1..][i] == fs[i + 1];
        }
      }
      VisibilityIrrelevant(fs[1..], gs[1..], plugins);
    }
  }

  // ---------------------------------------------------------------------
  // Line formats, each with its reader

  /** The three parts of a standard field line. */
  datatype StandardLine = StandardLine(name: string, typeLabel: string, valueText: string)

  /** Reads "<name> (Type <label>): <value>\n" for a space-free name and a
      label without ')'. */
  function ParseStandardLine(line: string): Option<StandardLine> {
    var i := IndexOf(line, ' ');
    var rest := line[i..];
    if |rest| >= 7 && rest[..7] == " (Type " then
      var body := rest[7..];
      var j := IndexOf(body, ')');
      if j + 4 <= |body| && body[j..j + 3] == "): " && body[|body| - 1] == '\n' then
        Some(StandardLine(line[..i], body[..j], body[j + 3..|body| - 1]))
      else None
    else None
  }

  /** The standard line carries the field name, the type label (the simple
      name of a primitive type, the canonical name otherwise) and the value's
      text, and nothing else. */
  lemma StandardLineRoundTrip(f: Field)
    requires SpaceFree(f.name) && ')' !in GetTypeOfField(f.fieldType) && !f.value.Null?
    ensures UseStandardFieldRenderer(f).Success?
    ensures ParseStandardLine(UseStandardFieldRenderer(f).value) ==
              Some(StandardLine(f.name,
                                if f.fieldType.isPrimitive then f.fieldType.simpleName else NullText(f.fieldType.canonicalName),
                                f.value.text))
  {
    ParseStandardLineOf(f.name, GetTypeOfField(f.fieldType), f.value.text);
  }

  lemma ParseStandardLineOf(name: string, typeLabel: string, v: string)
    requires SpaceFree(name) && ')' !in typeLabel
    ensures ParseStandardLine(name + " (Type " + typeLabel + "): " + v + "\n") == Some(StandardLine(name, typeLabel, v))
  {
    var line := name + " (Type " + typeLabel + "): " + v + "\n";
    var body := typeLabel + "): " + v + "\n";
    var rest := " (Type " + body;
    assert line == name + rest;
    SplitAtFirstSpace(name, rest);
    assert line[IndexOf(line, ' ')..] == rest;
    assert |rest| >= 7 && rest[..7] == " (Type " && rest[7..] == body;
    SplitTypeLabel(typeLabel, v);
  }

  /** In "<label>): <value>\n" with no ')' in the label, the first ')' ends the label. */
  lemma SplitTypeLabel(typeLabel: string, v: string)
    requires ')' !in typeLabel
    ensures var body := typeLabel + "): " + v + "\n";
            && IndexOf(body, ')') == |typeLabel|
            && |typeLabel| + 4 <= |body|
            && body[|typeLabel|..|typeLabel| + 3] == "): "
            && body[|body| - 1] == '\n'
            && body[..|typeLabel|] == typeLabel
            && body[|typeLabel| + 3..|body| - 1] == v
  {
    var body := typeLabel + "): " + v + "\n";
    assert body == typeLabel + [')'] + (": " + v + "\n");
    IndexOfAfterPrefix(typeLabel, ')', ": " + v + "\n");
  }

  /** In "<name><rest>" with a space-free name and `rest` starting with a
      space, the first space ends the name. */
  lemma SplitAtFirstSpace(name: string, rest: string)
    requires SpaceFree(name) && |rest| > 0 && rest[0] == ' '
    ensures IndexOf(name + rest, ' ') == |name|
    ensures (name + rest)[..|name|] == name && (name + rest)[|name|..] == rest
  {
    assert name + rest == name + [' '] + rest[1..];
    IndexOfAfterPrefix(name, ' ', rest[1..]);
  }

  /** Reads "<name> <text>" for a space-free name. */
  function ParseDelegatedLine(line: string): Option<(string, string)> {
    var i := IndexOf(line, ' ');
    if i < |line| then Some((line[..i], line[i + 1..])) else None
  }

  /** A delegated line is the field name, one space, and the plugin's text
      passed through unchanged: no newline or other text is added. */
  lemma DelegatedLinePassThrough(className: string, f: Field, plugins: Plugins)
    requires SpaceFree(f.name)
    requires UseExternalFieldRenderer(className, f, plugins).Success?
    ensures ParseDelegatedLine(UseExternalFieldRenderer(className, f, plugins).value) ==
              Some((f.name, PluginText(ResolveRender(className, f.fieldType, plugins).value(f.value))))
  {
    var text := PluginText(ResolveRender(className, f.fieldType, plugins).value(f.value));
    var line := UseExternalFieldRenderer(className, f, plugins).value;
    assert line == f.name + [' '] + text;
    IndexOfAfterPrefix(f.name, ' ', text);
    assert line[..|f.name|] == f.name;
    assert line[|f.name| + 1..] == text;
  }

  /** Reads "<name> returns: <return type>\n" for a space-free name. */
  function ParseMethodLine(line: string): Option<(string, string)> {
    var i := IndexOf(line, ' ');
    var rest := line[i..];
    if |rest| >= 11 && rest[..10] == " returns: " && rest[|rest| - 1] == '\n'
    then Some((line[..i], rest[10..|rest| - 1]))
    else None
  }

  /** A method line carries the method's name and its return type, nothing else. */
  lemma MethodLineRoundTrip(m: Method)
    requires SpaceFree(m.name)
    ensures ParseMethodLine(RenderMethod(m)) == Some((m.name, m.returnType))
  {
    var rest := " returns: " + m.returnType + "\n";
    assert RenderMethod(m) == m.name + rest;
    SplitAtFirstSpace(m.name, rest);
    SplitReturnType(m.returnType);
  }

  /** In " returns: <type>\n" the type sits between the fixed text and the newline. */
  lemma SplitReturnType(returnType: string)
    ensures var rest := " returns: " + returnType + "\n";
            && |rest| >= 11
            && rest[..10] == " returns: "
            && rest[|rest| - 1] == '\n'
            && rest[10..|rest| - 1] == returnType
  {
  }

  /** Reads the type name back out of a header line. */
  function ParseHeader(line: string): Option<string> {
    if |line| >= 14 && line[..12] == "Instance of " && line[|line| - 2..] == ":\n"
    then Some(line[12..|line| - 2])
    else None
  }

  /** The header names the target's canonical type name ("null" when it has none). */
  lemma HeaderRoundTrip(t: Target)
    ensures ParseHeader(RenderInstanceName(t)) == Some(NullText(t.canonicalName))
  {
  }

  // ---------------------------------------------------------------------
  // Field dispatch, read back

  /** Which line each branch of `renderField` produces: with an empty `with`
      the standard line of the field's name, type label and value text; with
      any other `with` the field's name and exactly the plugin's text. */
  lemma RenderFieldReadsBack(f: Field, plugins: Plugins)
    requires f.marker.Some?
    ensures var r := RenderField(f, plugins);
            f.marker.value.with == "" && r.Success? && SpaceFree(f.name) && ')' !in GetTypeOfField(f.fieldType) ==>
              ParseStandardLine(r.value) == Some(StandardLine(f.name, GetTypeOfField(f.fieldType), f.value.text))
    ensures var r := RenderField(f, plugins);
            f.marker.value.with != "" && r.Success? && SpaceFree(f.name) ==>
              && ResolveRender(f.marker.value.with, f.fieldType, plugins).Success?
              && ParseDelegatedLine(r.value) ==
                   Some((f.name, PluginText(ResolveRender(f.marker.value.with, f.fieldType, plugins).value(f.value))))
  {
    var with := f.marker.value.with;
    var r := RenderField(f, plugins);
    if with == "" {
      if r.Success? && SpaceFree(f.name) && ')' !in GetTypeOfField(f.fieldType) {
        StandardLineRoundTrip(f);
      }
    } else if r.Success? && SpaceFree(f.name) {
      DelegatedLinePassThrough(with, f, plugins);
    }
  }

  // ---------------------------------------------------------------------
  // The delegated path as the source writes it

  /** A field handed to a plugin. */
  predicate Delegated(f: Field) {
    f.marker.Some? && f.marker.value.with != ""
  }

  /** As written, a field differs from the corrected model only when it is
      delegated, not readable, and its plugin resolves: it then fails with an
      access error. */
  lemma FieldPartAsWrittenDiffers(f: Field, plugins: Plugins)
    ensures FieldPartAsWritten(f, plugins) ==
              if Delegated(f) && !f.readable && ResolveRender(f.marker.value.with, f.fieldType, plugins).Success?
              then Failure(FieldNotAccessible(f.name))
              else FieldPart(f, plugins)
  {
  }

  /** When every delegated field is readable, the source as written renders
      the fields exactly as the corrected model does. */
  lemma {:induction false} FieldsAsWrittenWhenReadable(fs: seq<Field>, plugins: Plugins)
    requires forall i :: 0 <= i < |fs| && Delegated(fs[i]) ==> fs[i].readable
    ensures RenderFieldsAsWritten(fs, plugins) == RenderFields(fs, plugins)
    decreases |fs|
  {
    if |fs| > 0 {
      FieldPartAsWrittenDiffers(fs[0], plugins);
      assert forall i :: 0 <= i < |fs[1..]| ==> fs[1..][i] == fs[i + 1];
      FieldsAsWrittenWhenReadable(fs[1..], plugins);
    }
  }

  /** When every delegated field is readable, the source as written renders
      the object exactly as the corrected model does. */
  lemma RenderAsWrittenWhenReadable(t: Target, plugins: Plugins)
    requires forall i :: 0 <= i < |t.fields| && Delegated(t.fields[i]) ==> t.fields[i].readable
    ensures RenderAsWritten(Instance(t), plugins) == Render(Instance(t), plugins)
  {
    FieldsAsWrittenWhenReadable(t.fields, plugins);
  }

  /** Whenever the source as written renders, it renders exactly what the
      corrected model renders: a success as written implies every delegated
      field was readable. */
  lemma RenderAsWrittenSuccessAgrees(t: Target, plugins: Plugins)
    requires RenderAsWritten(Instance(t), plugins).Success?
    ensures RenderAsWritten(Instance(t), plugins) == Render(Instance(t), plugins)
  {
    forall i | 0 <= i < |t.fields| && Delegated(t.fields[i])
      ensures t.fields[i].readable
    {
      FieldPartAsWrittenDiffers(t.fields[i], plugins);
    }
    RenderAsWrittenWhenReadable(t, plugins);
  }

  /** As written, the first field that fails decides the result, and a private
      delegated field whose plugin resolves fails with an access error. */
  lemma RenderAsWrittenRefusesPrivate(t: Target, plugins: Plugins, i: nat)
    requires i < |t.fields| && Delegated(t.fields[i]) && !t.fields[i].readable
    requires ResolveRender(t.fields[i].marker.value.with, t.fields[i].fieldType, plugins).Success?
    requires forall j :: 0 <= j < i ==> FieldPartAsWritten(t.fields[j], plugins).Success?
    ensures RenderAsWritten(Instance(t), plugins) == Failure(FieldNotAccessible(t.fields[i].name))
  {
    var fs := t.fields;
    FieldPartAsWrittenDiffers(fs[i], plugins);
    var r := RenderFieldsAsWritten(fs, plugins);
    assert r.Failure?;
    var k :| 0 <= k < |fs| && FieldPartAsWritten(fs[k], plugins) == Failure(r.error)
             && forall j :: 0 <= j < k ==> FieldPartAsWritten(fs[j], plugins).Success?;
    assert k == i;
  }
}

=== FILE: scenario.dfy ===
/** The repository's test object `SomeClass` and the sample plugin
    `edu.hm.renderer.ArrayRenderer` registered as a loadable class, with the
    outputs the tests expect. */
module Scenario {
  import opened Wrappers
  import opened Decimal
  import opened Metadata
  import opened Renderer
  import opened RendererProperties
  import ArrayRenderer

  const IntType := TypeDesc(true, "int", Some("int"))
  const IntArrayType := TypeDesc(false, "int[]", Some("int[]"))
  const DateType := TypeDesc(false, "Date", Some("java.util.Date"))

  const ArrayRendererName := "edu.hm.renderer.ArrayRenderer"
  const SomeClassName := "edu.hm.cs.swa.demo.SomeClass"

  /** `ArrayRenderer.render(int[])` as seen through `Method.invoke`. */
  function ArrayRendererCall(v: Value): PluginOutcome {
    match v
    case IntArray(elements, _) => Returned(ArrayRenderer.Render(elements))
    case Null => Threw        // the for-each loop dereferences a null array
    case Object(_) => Threw   // only reachable for a field not declared `int[]`
  }

  /** The plugin class: public no-argument constructor, one `render(int[])`. */
  const ArrayRendererClass := PluginClass(Accessible, map[IntArrayType := ArrayRendererCall])

  /** The classes loadable by name in the test setting. */
  const Registry: Plugins := map[ArrayRendererName := ArrayRendererClass]

  function FooField(foo: Int32): Field {
    Field("foo", IntType, Some(RenderMe(None)), false, Object(IntToString(foo)))
  }

  function ArrayField(readable: bool, arrayText: string): Field {
    Field("array", IntArrayType, Some(RenderMe(Some(ArrayRendererName))), readable, IntArray([1, 2, 3], arrayText))
  }

  function DateField(dateText: string): Field {
    Field("date", DateType, Some(RenderMe(None)), false, Object(dateText))
  }

  /** `SomeClass(foo)`: `foo` and `date` in the standard format, `array`
      delegated to the array plugin. `arrayText` and `dateText` are the values'
      `toString()` results; the first is never printed, the second depends on
      the time zone. `arrayReadable` says whether `array` is private. */
  function SomeClass(foo: Int32, arrayReadable: bool, arrayText: string, dateText: string): Target {
    Target(Some(SomeClassName),
           [FooField(foo), ArrayField(arrayReadable, arrayText), DateField(dateText)],
           [])
  }

  lemma FooLine(foo: Int32)
    ensures FieldPart(FooField(foo), Registry) == Success("foo (Type int): " + IntToString(foo) + "\n")
  {
    assert "foo" + " (Type " + "int" + "): " == "foo (Type int): ";
  }

  lemma ArrayLine(readable: bool, arrayText: string)
    ensures FieldPart(ArrayField(readable, arrayText), Registry) == Success("array (Type int[]): [1, 2, 3, ]\n")
  {
    DelegatedArrayLine(readable, arrayText);
    ArrayLineText();
  }

  /** The `array` field is delegated: its line is its name and the plugin's text. */
  lemma DelegatedArrayLine(readable: bool, arrayText: string)
    ensures FieldPart(ArrayField(readable, arrayText), Registry) == Success("array" + " " + ArrayRenderer.Render([1, 2, 3]))
  {
    var f := ArrayField(readable, arrayText);
    assert FieldPart(f, Registry) == UseExternalFieldRenderer(ArrayRendererName, f, Registry);
    ResolveArrayRenderer();
  }

  lemma ArrayLineText()
    ensures "array" + " " + ArrayRenderer.Render([1, 2, 3]) == "array (Type int[]): [1, 2, 3, ]\n"
  {
    ArrayRenderer.RenderOneTwoThree();
    PrefixArrayName(ArrayRenderer.Render([1, 2, 3]));
  }

  lemma PrefixArrayName(text: string)
    requires text == "(Type int[]): [1, 2, 3, ]\n"
    ensures "array" + " " + text == "array (Type int[]): [1, 2, 3, ]\n"
  {
  }

  /** The array plugin loads by name and has a `render(int[])`. */
  lemma ResolveArrayRenderer()
    ensures ResolveRender(ArrayRendererName, IntArrayType, Registry) == Success(ArrayRendererCall)
  {
  }

  lemma DateLine(dateText: string)
    ensures FieldPart(DateField(dateText), Registry) == Success("date (Type java.util.Date): " + dateText + "\n")
  {
    assert "date" + " (Type " + "java.util.Date" + "): " == "date (Type java.util.Date): ";
  }

  /** The text the repository's tests expect, given the text of `foo` and of `date`. */
  function ExpectedOutput(fooText: string, dateText: string): string {
    "Instance of " + SomeClassName + ":\n"
    + "foo (Type int): " + fooText + "\n"
    + "array (Type int[]): [1, 2, 3, ]\n"
    + "date (Type java.util.Date): " + dateText + "\n"
  }

  lemma SomeClassFields(foo: Int32, arrayReadable: bool, arrayText: string, dateText: string)
    ensures RenderFields(SomeClass(foo, arrayReadable, arrayText, dateText).fields, Registry) ==
              Success(("foo (Type int): " + IntToString(foo) + "\n")
                      + ("array (Type int[]): [1, 2, 3, ]\n"
                         + ("date (Type java.util.Date): " + dateText + "\n")))
  {
    var l2 := "date (Type java.util.Date): " + dateText + "\n";
    FooLine(foo);
    ArrayLine(arrayReadable, arrayText);
    DateLine(dateText);
    ThreeFields(FooField(foo), ArrayField(arrayReadable, arrayText), DateField(dateText), Registry);
    assert l2 + "" == l2;
  }

  lemma ThreeFields(f0: Field, f1: Field, f2: Field, plugins: Plugins)
    ensures RenderFields([f0, f1, f2], plugins) ==
              Join(FieldPart(f0, plugins), Join(FieldPart(f1, plugins), Join(FieldPart(f2, plugins), Success(""))))
  {
    assert [f0, f1, f2][1..] == [f1, f2];
    assert [f1, f2][1..] == [f2];
    assert [f2][1..] == [];
    assert RenderFields([f2], plugins) == Join(FieldPart(f2, plugins), RenderFields([], plugins));
    assert RenderFields([f1, f2], plugins) == Join(FieldPart(f1, plugins), RenderFields([f2], plugins));
  }

  lemma ExpectedOutputShape(fooText: string, dateText: string)
    ensures ExpectedOutput(fooText, dateText) ==
              ("Instance of " + SomeClassName + ":\n")
              + (("foo (Type int): " + fooText + "\n")
                 + ("array (Type int[]): [1, 2, 3, ]\n" + ("date (Type java.util.Date): " + dateText + "\n")))
              + ""
  {
  }

  /** The expected output of the repository's tests, for any value of `foo`:
      with the delegated path corrected whatever the visibility of `array`,
      and as the source is written when `array` is readable. */
  lemma SomeClassRendering(foo: Int32, arrayReadable: bool, arrayText: string, dateText: string)
    ensures New(Some(SomeClass(foo, arrayReadable, arrayText, dateText))).Success?
    ensures Render(New(Some(SomeClass(foo, arrayReadable, arrayText, dateText))).value, Registry) ==
              Success(ExpectedOutput(IntToString(foo), dateText))
    ensures arrayReadable ==>
              RenderAsWritten(New(Some(SomeClass(foo, arrayReadable, arrayText, dateText))).value, Registry) ==
              Success(ExpectedOutput(IntToString(foo), dateText))
  {
    var t := SomeClass(foo, arrayReadable, arrayText, dateText);
    assert Render(Instance(t), Registry) == Success(ExpectedOutput(IntToString(foo), dateText)) by {
      SomeClassFields(foo, arrayReadable, arrayText, dateText);
      ExpectedOutputShape(IntToString(foo), dateText);
      assert RenderMethods(t.methods) == "";
    }
    if arrayReadable {
      assert forall i :: 0 <= i < |t.fields| && Delegated(t.fields[i]) ==> t.fields[i].readable by {
        assert !Delegated(t.fields[0]) && !Delegated(t.fields[2]);
      }
      RenderAsWrittenWhenReadable(t, Registry);
    }
  }

  /** As the source is written, a private `array` makes the whole render fail
      with an access error instead of producing the expected text. */
  lemma SomeClassPrivateArrayAsWritten(foo: Int32, arrayText: string, dateText: string)
    ensures RenderAsWritten(Instance(SomeClass(foo, false, arrayText, dateText)), Registry) ==
              Failure(FieldNotAccessible("array"))
  {
    var t := SomeClass(foo, false, arrayText, dateText);
    assert FieldPartAsWritten(t.fields[0], Registry).Success?;
    ResolveArrayRenderer();
    RenderAsWrittenRefusesPrivate(t, Registry, 1);
  }

  /** The boundary values of `foo` the tests use, as Java prints them. */
  lemma BoundaryValueTexts()
    ensures IntToString(0) == "0"
    ensures IntToString(MaxInt32) == "2147483647"
    ensures IntToString(MinInt32) == "-2147483648"
  {
    assert NatToString(2) == "2";
    assert NatToString(21) == "21";
    assert NatToString(214) == "214";
    assert NatToString(2147) == "2147";
    assert NatToString(21474) == "21474";
    assert NatToString(214748) == "214748";
    assert NatToString(2147483) == "2147483";
    assert NatToString(21474836) == "21474836";
    assert NatToString(214748364) == "214748364";
    assert NatToString(2147483647) == "2147483647";
    assert NatToString(2147483648) == "2147483648";
  }

  /** With `foo == 5` and a readable `array`: the output `RendererTest`
      expects, both as the source is written and as corrected. */
  lemma RendererTestExpectation(arrayText: string, dateText: string)
    ensures Render(Instance(SomeClass(5, true, arrayText, dateText)), Registry) == Success(ExpectedOutput("5", dateText))
    ensures RenderAsWritten(Instance(SomeClass(5, true, arrayText, dateText)), Registry) == Success(ExpectedOutput("5", dateText))
  {
    SomeClassRendering(5, true, arrayText, dateText);
    assert IntToString(5) == "5";
  }

  /** Constructing a renderer over no object fails before anything is rendered. */
  lemma NullTargetRefused()
    ensures New(None) == Failure(IllegalArgument)
  {
  }

  /** The source as written: a private field delegated to a plugin is read
      without the access override and fails, although the plugin would have
      rendered it. */
  lemma PrivateDelegatedFieldAsWritten(arrayText: string)
    ensures UseExternalFieldRendererAsWritten(ArrayRendererName, ArrayField(false, arrayText), Registry)
            == Failure(FieldNotAccessible("array"))
    ensures UseExternalFieldRenderer(ArrayRendererName, ArrayField(false, arrayText), Registry)
            == Success("array (Type int[]): [1, 2, 3, ]\n")
  {
    ArrayLine(false, arrayText);
  }
}

=== FILE: text.dfy ===
/** Small facts about Java strings used by the line formats. */
module Text {
  import opened Wrappers

  /** Java's string conversion of a possibly-null `String`: concatenating or
      appending a null reference writes the four characters "null". */
  function NullText(s: Option<string>): (r: string)
    ensures s.Some? ==> r == s.value
    ensures s.None? ==> r == "null"
  {
    match s
    case Some(t) => t
    case None => "null"
  }

  /** Position of the first `c` in `s`, or `|s|` when there is none. */
  function IndexOf(s: string, c: char): (i: nat)
    ensures i <= |s|
    ensures i < |s| ==> s[i] == c
    ensures forall j :: 0 <= j < i ==> s[j] != c
  {
    if |s| == 0 then 0
    else if s[0] == c then 0
    else 1 + IndexOf(s[1..], c)
  }

  /** In `a + [c] + b` with no `c` inside `a`, the first `c` is the one after `a`. */
  lemma IndexOfAfterPrefix(a: string, c: char, b: string)
    requires c !in a
    ensures IndexOf(a + [c] + b, c) == |a|
  {
    var s := a + [c] + b;
    assert s[|a|] == c;
    assert forall j :: 0 <= j < |a| ==> s[j] == a[j];
  }

  lemma ConcatAssoc(x: string, y: string, z: string)
    ensures x + (y + z) == (x + y) + z
  {
  }
}

=== FILE: wrappers.dfy ===
/** Failure-compatible wrappers used by the renderer model: `Option` stands in
    for a Java reference that may be null, `Result` for a value or the checked
    exception that aborted its computation. Both work with `:-`. */
module Wrappers {

  datatype Option<+T> = None | Some(value: T)

  datatype Result<+R, +E> = Success(value: R) | Failure(error: E) {

    predicate IsFailure() {
      Failure?
    }

    function PropagateFailure<U>(): Result<U, E>
      requires Failure?
    {
      Failure(error)
    }

    function Extract(): R
      requires Success?
    {
      value
    }
  }
}
